=== FILE: README.md ===
# Dataset session store, modelled in Dafny

This project models the `Dataset` store module of a geospatial dataset explorer
(`app/store/modules/dataset.js`). One instance of it exists per browsing session. It
holds the following:

- the selected dataset's catalog record (`metadata`) and its selected variable;
- the study area the user drew (`geoJson`) and that area's size in square meters, cached;
- the temporal range;
- the fetched time series and a `hasData` flag;
- the status of the time-series request. The page displays this status.

The store's mutations and actions are modelled as pure functions from one state to the
next. Its getters are functions of the state.

- `Options` defines `Option`, which stands for JavaScript's `null`.
- `Status` covers the request status. It has six variants. Each has a status name, an
  optional top-level severity (the object's `type`) and a message list. `Status` also
  maps a server's error details to messages.
- `Catalog` holds catalog records (`Metadata`, `Period`, `Variable`) and the lookup by
  id. Lookup returns the first match, as `Array.prototype.find` does.
- `Dataset` holds the store state, every mutation and action, and the getters.
- `DatasetProperties` holds the lemmas that relate several operations. They cover
  selection, idempotent loading, the request gate and the geometry key.
- `Session` treats a session as a sequence of calls. It proves an invariant that holds
  in every state a fresh session reaches through well-formed calls.

A call that throws a `TypeError` in the store returns `Threw(fault, state)`. The state is
whatever the call committed before the throw. Two calls can throw:

- `setVariable` when no metadata is loaded;
- `loadDefaultVariable` when no variable is selected and no metadata can be loaded, or
  the metadata has no variables.

Calls that complete return `Completed(state)`.

Three external pieces are parameters:

- the dataset catalog, a `seq<Metadata>`;
- the area calculator, a total function from an opaque `Geometry` type to `real`;
- the current calendar year, which the `timespan` getter uses.

### Edge cases the model keeps

- **Temporal range length.** `setTemporalRange` replaces the range's contents with
  whatever list it is given, of any length. The "range is a pair" invariant is
  therefore proved only for callers that pass pairs (`Session.WellFormed`).
- **Duplicate variable ids.** `setVariable` flags every variable whose id matches as
  visible. The selected `variable` is the last of them.
- **No top-level type.** The `timeout` and `no-area` status objects have no top-level
  `type` field. Only their single message carries the type `warning`.
- **Selecting without metadata.** `setVariable` with no metadata loaded throws a
  `TypeError` on the null dereference and changes nothing.
- **No default variable to select.** `loadDefaultVariable` throws a `TypeError` when no
  variable is selected and, even after its load, there is no metadata or the metadata
  has no variables. Whatever the load committed before the throw stays.

## Model

| member | source | states |
|---|---|---|
| Status.NameDeterminesVariant | app/store/modules/dataset.js:6-36 | two statuses have the same `status` string exactly when they are the same variant, so comparing names tests the variant |
| Status.ErrorMessages | app/store/modules/dataset.js:174-177 | mapping error details gives one error-typed message per detail, in order, holding that detail's `msg` (no dropping, no merging) |
| Status.BuiltStatusesAreConsistent | app/store/modules/dataset.js:9-36 | every status object the store builds has messages whose type matches its own type, or `warning` for the two statuses without a type |
| Catalog.FindIndex | app/store/modules/dataset.js:75 | the index found holds the id and no earlier record does; when nothing is found, no record has the id |
| Catalog.Find | app/store/modules/dataset.js:75-76 | lookup gives a catalog record with that id, and the first such record; it gives nothing exactly when no record has the id |
| Dataset.HasGeoJson | app/store/modules/dataset.js:86-88 | true exactly when a study-area geometry is present |
| Dataset.ToTemporalRange | app/store/modules/dataset.js:38-43 | a dataset's period read as a pair: `gte` first, then `lte` |
| Dataset.CanHandleTimeSeriesRequest | app/store/modules/dataset.js:97-99 | the request gate is open exactly when metadata, a geometry and a variable are all present |
| Dataset.GeoJsonKey | app/store/modules/dataset.js:90-95 | without metadata the key is `skope:geometry`; with metadata it is `geojson:` followed by exactly the dataset id |
| Dataset.TimeZero | app/store/modules/dataset.js:125-130 | the loaded dataset's time zero when it has one, and 0 otherwise; a non-zero result always comes from that period |
| Dataset.Timespan | app/store/modules/dataset.js:132-138 | always a pair: the dataset's `[gte, lte]`, or `[1, currentYear]` with no dataset |
| Dataset.IsTimeSeriesLoading | app/store/modules/dataset.js:140-142 | true exactly when the status is the loading variant |
| Dataset.IsTimeSeriesLoaded | app/store/modules/dataset.js:144-146 | true exactly when the status is the success variant |
| Dataset.SetAreaPerPixel | app/store/modules/dataset.js:148-152 | sets the area per pixel and changes nothing else |
| Dataset.SetTimeSeriesLoading | app/store/modules/dataset.js:154-157 | status becomes loading: info type, the one loading message; loading getter true, loaded false; only the status changes |
| Dataset.SetTimeSeriesLoaded | app/store/modules/dataset.js:159-162 | status becomes success: info type, the one success message; loaded getter true, loading false; only the status changes |
| Dataset.SetTimeSeriesTimeout | app/store/modules/dataset.js:164-167 | status becomes `timeout` with no top-level type and one warning message; neither getter holds; only the status changes |
| Dataset.SetTimeSeriesBadRequest | app/store/modules/dataset.js:169-179 | status becomes `badrequest` of type error, with exactly one error message per detail holding `ds[i].msg`; only the status changes |
| Dataset.SetTimeSeriesServerError | app/store/modules/dataset.js:181-191 | status becomes `servererror` of type error, with exactly one error message per detail holding `ds[i].msg`; only the status changes |
| Dataset.SetTimeSeriesNoArea | app/store/modules/dataset.js:193-196 | status becomes `no-area` with no top-level type and one warning message; only the status changes |
| Dataset.SetMetadata | app/store/modules/dataset.js:198-208 | metadata is replaced; a present record also sets the temporal range to its `[gte, lte]`, an absent one leaves the range alone |
| Dataset.SetTemporalRange | app/store/modules/dataset.js:210-213 | the range's contents become the given list, whatever its length; nothing else changes |
| Dataset.ScanVariables | app/store/modules/dataset.js:217-222 | the loop sets each flag to "has this id", keeping order and ids; its selection is the last match, or the prior selection when nothing matches |
| Dataset.SetVariable | app/store/modules/dataset.js:215-223 | throws with no metadata, changing nothing; otherwise each flag becomes `v.id == id` with length, order and ids kept; `variable` is the last match, else unchanged |
| Dataset.SetGeoJson | app/store/modules/dataset.js:225-229 | stores the geometry; the cached area is `area(g)` for a geometry and 0 for none (non-negative when `area` is) |
| Dataset.ClearGeoJson | app/store/modules/dataset.js:231-235 | no geometry, area 0 and the request gate closed; nothing else changes |
| Dataset.SetTimeSeries | app/store/modules/dataset.js:237-241 | stores the data and marks a completed load, even for empty data |
| Dataset.ClearTimeSeries | app/store/modules/dataset.js:243-250 | empty `x` and `y`, no completed load; nothing else changes |
| Dataset.LoadMetadata | app/store/modules/dataset.js:72-84 | a no-op when that dataset is already loaded or the id is unknown; any change leaves that id loaded; only metadata, variable and range can change |
| Dataset.LoadDefaultVariable | app/store/modules/dataset.js:62-70 | on completion a variable is selected; loaded metadata is never replaced, even for a different id; an existing selection is kept when metadata is already loaded; with no metadata the result is exactly the load, and with metadata but no selection it is exactly selecting the first variable, so only flags and the selection change; only metadata, variable and range change |
| Dataset.LoadDefaultVariableThrowsIff | app/store/modules/dataset.js:63-69 | throws exactly when no variable is selected and there is no metadata, even after loading, or it has no variables |
| DatasetProperties.LoadDefaultVariableSelectsFirst | app/store/modules/dataset.js:63-69 | with nothing selected, a completed call selects the first variable of the metadata it ends with, flagged visible, and every flag is rewritten for that id |
| DatasetProperties.LoadDefaultVariableLoadsWhenEmpty | app/store/modules/dataset.js:64-66 | with no metadata loaded, the metadata afterwards is what the catalog lookup finds: nothing for an unknown id, else the first record with that id, flags rewritten for its first variable, which becomes the selection |
| DatasetProperties.LoadDefaultVariableReloadsOverStaleSelection | app/store/modules/dataset.js:63-67 | with no metadata loaded but a variable selected, the action is exactly the load, which replaces that selection with the found record's first variable |
| DatasetProperties.TimeZeroAfterSetMetadata | app/store/modules/dataset.js:124-129 | after the metadata is set, the time-zero getter reads back that period's time zero, or 0 when it has none or the metadata is absent |
| DatasetProperties.TemporalRangeAgreesWithTimespan | app/store/modules/dataset.js:38-43 | after the metadata is set, the stored temporal range and the timespan getter are the same `[gte, lte]` pair |
| DatasetProperties.InitialState | app/store/modules/dataset.js:47-60 | a fresh session is loading, has no gate, range `[1, 2000]`, no data, area 0 and the default key |
| DatasetProperties.LoadingAndLoadedExclusive | app/store/modules/dataset.js:140-146 | the loading and loaded getters are never both true |
| DatasetProperties.SetVariableSelectsUnique | app/store/modules/dataset.js:216-222 | with unique ids, selecting variable k's id leaves exactly variable k visible and selected |
| DatasetProperties.SetVariableDuplicateIdsLastWins | app/store/modules/dataset.js:216-222 | for any positions `i < j` sharing the id, with `j` its last occurrence, both become visible and the variable at `j` is selected |
| DatasetProperties.SetVariableIdempotent | app/store/modules/dataset.js:216-222 | selecting the same id twice gives the same outcome as selecting it once |
| DatasetProperties.LoadMetadataIdempotent | app/store/modules/dataset.js:72-84 | loading the same id twice gives the same state as loading it once |
| DatasetProperties.LoadMetadataLoadsFirstRecord | app/store/modules/dataset.js:72-84 | a successful load installs the first catalog record with that id and sets range and timespan to its period; see the note below the table |
| DatasetProperties.LoadMetadataSelectsFirstVariable | app/store/modules/dataset.js:79-81 | with unique variable ids, after a load exactly the first variable is visible and it is the selection |
| DatasetProperties.ClearGeoJsonIsSetNull | app/store/modules/dataset.js:225-235 | clearing the geometry equals setting it to null, for every area calculator |
| DatasetProperties.ClearTimeSeriesUndoesSet | app/store/modules/dataset.js:237-250 | clearing after storing data equals clearing alone |
| DatasetProperties.GeoJsonKeyIdentifiesDataset | app/store/modules/dataset.js:90-95 | two sessions share a geometry key exactly when they have the same dataset id loaded, or none |
| DatasetProperties.GateOpensAfterLoadAndDraw | app/store/modules/dataset.js:86-99 | loading a dataset that has variables and then drawing an area opens the gate; clearing the area closes it |
| Session.ApplyKeepsInvariant | app/store/modules/dataset.js:62-250 | every well-formed mutation or action keeps the invariant, whether it completes or throws |
| Session.RunKeepsInvariant | app/store/modules/dataset.js:62-250 | a sequence of well-formed calls keeps the invariant |
| Session.ReachableStatesKeepInvariant | app/store/modules/dataset.js:45-251 | in every state reachable by well-formed calls the cached area matches the geometry, no data means empty series, the range is a pair, and message types match |
| Session.StatusSettersTouchOnlyStatus | app/store/modules/dataset.js:154-196 | the six status setters always complete and change nothing but the request status |

Note on `DatasetProperties.LoadMetadataLoadsFirstRecord`: when the record has
variables, its flags are rewritten for the first variable's id and that id becomes the
selection. When it has none, the previous selection is kept.

## Left out

- The getters `selectedAreaInSquareKm`, `pixelArea`, `numberOfPixels`, `mean`, `median`
  and `stdDev` are left out. The first formats a float with `toFixed(2)`; the rest return
  hard-coded placeholder numbers.
- Dataset.Geometry: the area calculation (`@turf/area`) is not modelled. The
  geometry is opaque and the calculator is a parameter.
- Catalog.Period: `parseInt` of the period's `gte`/`lte` strings is not modelled. The
  bounds are already-parsed integers.
- Catalog.Period: the time zero is `Option<int>`. The source's `timeZero || 0` also maps
  other falsy values (`""`, `NaN`) to 0, and those values are not modelled.
- Dataset.Timespan: `new Date().getFullYear()` is replaced by a `currentYear` parameter.
- Dataset.SetVariable: `variable` holds a copy of the matched entry, not an alias. In
  the source, a stale selection's `visible` flag is later switched off in place by a
  non-matching selection. The model keeps the flag it had when it was selected.
- Dataset.LoadMetadata: in the source, the loaded catalog objects are shared with the
  store, so `setVariable` also changes the catalog's flags. The model's catalog never
  changes.
- Dataset.State: `null` and `undefined` metadata are not distinguished. The key getter
  uses `=== null`, so `undefined` metadata would make it throw, and that case is not
  modelled.
- The Vuex decorators, the async `dispatch`/`commit` plumbing and `console.log` are left
  out. Actions run as synchronous state transitions.
- `app/plugins/store.js` (the named-module injection wrapper) is not part of this
  model, because it has no logic of its own.
- Dataset.SetTemporalRange: the source replaces the range's contents in place with
  `splice`, so the array object stays the same for outside bindings. The model replaces a
  `seq` value, so only the contents are modelled, not the array's identity.
- Dataset.SetMetadata: the temporal range is likewise updated in place with `splice`.
  Only its new contents are modelled, not the array's identity.
- Dataset.State: `areaPerPixel` and the time-series values are Dafny reals, not IEEE
  doubles. No floating-point rounding is modelled.

=== FILE: catalog.dfy ===
/**
 Dataset catalog records as the store receives them: a dataset's id, its time span and
 its ordered list of selectable variables, plus the by-id lookup into the catalog.
 */
module Catalog {
  import opened Options

  /**
   One selectable measured quantity of a dataset. `name` stands for the record's other
   catalog attributes, carried along unchanged; `visible` marks the selected variable.
   */
  datatype Variable = Variable(id: string, name: string, visible: bool)

  /** A dataset's `timespan.period`, with `gte` and `lte` already parsed as integers. */
  datatype Period = Period(gte: int, lte: int, timeZero: Option<int>)

  /** One catalog record. */
  datatype Metadata = Metadata(id: string, period: Period, variables: seq<Variable>)

  /** No two variables share an id. */
  ghost predicate UniqueIds(vars: seq<Variable>) {
    forall i, j :: 0 <= i < j < |vars| ==> vars[i].id != vars[j].id
  }

  /** Some variable has the given id. */
  ghost predicate HasMatch(vars: seq<Variable>, id: string) {
    exists i :: 0 <= i < |vars| && vars[i].id == id
  }

  /** Position `k` holds the last variable with the given id. */
  ghost predicate IsLastMatch(vars: seq<Variable>, id: string, k: int) {
    && 0 <= k < |vars|
    && vars[k].id == id
    && forall j :: k < j < |vars| ==> vars[j].id != id
  }

  /** Exactly the variable at position `k` is flagged visible. */
  ghost predicate VisibleExactly(vars: seq<Variable>, k: int) {
    && 0 <= k < |vars|
    && forall i :: 0 <= i < |vars| ==> (vars[i].visible <==> i == k)
  }

  /** `after` is `before` with each flag rewritten to "this variable has the given id". */
  ghost predicate FlaggedFor(before: seq<Variable>, after: seq<Variable>, id: string) {
    && |after| == |before|
    && forall i :: 0 <= i < |before| ==> after[i] == before[i].(visible := before[i].id == id)
  }

  /** Position of the first catalog record with the given id, if any. */
  function FindIndex(catalog: seq<Metadata>, id: string): (r: Option<nat>)
    ensures r.Some? ==> r.value < |catalog| && catalog[r.value].id == id
    ensures r.Some? ==> forall j :: 0 <= j < r.value ==> catalog[j].id != id
    ensures r.None? ==> forall j :: 0 <= j < |catalog| ==> catalog[j].id != id
  {
    if |catalog| == 0 then None
    else if catalog[0].id == id then Some(0)
    else match FindIndex(catalog[1..], id)
      case None => None
      case Some(k) => Some(k + 1)
  }

  /** The catalog lookup by exact id: the first record with that id, or nothing. */
  function Find(catalog: seq<Metadata>, id: string): (r: Option<Metadata>)
    ensures r.Some? ==> r.value.id == id
    ensures r.Some? ==> exists k :: 0 <= k < |catalog| && catalog[k] == r.value
                                   && forall j :: 0 <= j < k ==> catalog[j].id != id
    ensures r.None? <==> forall j :: 0 <= j < |catalog| ==> catalog[j].id != id
  {
    match FindIndex(catalog, id)
    case None => None
    case Some(k) => Some(catalog[k])
  }
}

=== FILE: dataset.dfy ===
/**
 The dataset session store: the selected dataset and variable, the drawn study area
 with its cached area, the temporal range, the fetched time series and the status of
 the time-series request. Every mutation and action is a pure function from the old
 state to the new one; every getter is a function of the state.
 */
module Dataset {
  import opened Options
  import opened Status
  import opened Catalog

  /** A drawn study area (a GeoJSON geometry); its contents are never inspected here. */
  type Geometry(==, !new)

  /** The geodesic area calculator the store applies to a geometry, in square meters. */
  type AreaFunction = Geometry -> real

  /** Fetched time-series data: the `x` and `y` value lists. */
  datatype TimeSeries = TimeSeries(x: seq<real>, y: seq<real>)

  const NoTimeSeries := TimeSeries([], [])

  /**
   The TypeError an action or mutation throws: reading `variables` of null metadata,
   or reading `id` of the missing first variable of an empty variable list.
   */
  datatype Fault = MetadataMissing | NoVariables

  /** The store's fields. */
  datatype State = State(
    timeseries: TimeSeries,
    metadata: Option<Metadata>,
    hasData: bool,
    geoJson: Option<Geometry>,
    selectedAreaInSquareMeters: real,
    temporalRange: seq<int>,
    areaPerPixel: real,
    variable: Option<Variable>,
    timeSeriesRequestStatus: RequestStatus)

  /**
   What an action or mutation leaves behind: it completes, or it throws, in which case
   `state` holds whatever was committed before the throw.
   */
  datatype Outcome = Completed(state: State) | Threw(fault: Fault, state: State)

  const DefaultTemporalRange: seq<int> := [1, 2000]
  const DefaultAreaPerPixel: real := 45.8

  /** The state a fresh session starts in. */
  const Initial: State := State(
    NoTimeSeries, None, false, None, 0.0, DefaultTemporalRange,
    DefaultAreaPerPixel, None, Loading)

  // ---------------------------------------------------------------------------
  // Getters

  /** A study area has been drawn. */
  function HasGeoJson(s: State): (r: bool)
    ensures r <==> s.geoJson.Some?
  {
    s.geoJson.Some?
  }

  /** The gate a caller checks before asking for a time series. */
  function CanHandleTimeSeriesRequest(s: State): (r: bool)
    ensures r <==> s.metadata.Some? && s.geoJson.Some? && s.variable.Some?
  {
    s.metadata.Some? && HasGeoJson(s) && s.variable.Some?
  }

  const DefaultGeoJsonKey := "skope:geometry"
  const GeoJsonKeyPrefix := "geojson:"

  /** The key under which the drawn geometry is saved: one per dataset, or a shared default. */
  function GeoJsonKey(s: State): (k: string)
    ensures s.metadata.None? ==> k == DefaultGeoJsonKey
    ensures s.metadata.Some? ==> |k| >= |GeoJsonKeyPrefix| && k[..|GeoJsonKeyPrefix|] == GeoJsonKeyPrefix
    ensures s.metadata.Some? ==> k[|GeoJsonKeyPrefix|..] == s.metadata.value.id
  {
    match s.metadata
    case None => DefaultGeoJsonKey
    case Some(m) => GeoJsonKeyPrefix + m.id
  }

  /** The dataset's time origin; a missing time zero (or missing metadata) reads as 0. */
  function TimeZero(s: State): (t: int)
    ensures t != 0 ==> s.metadata.Some? && s.metadata.value.period.timeZero == Some(t)
    ensures s.metadata.None? ==> t == 0
    ensures s.metadata.Some? && s.metadata.value.period.timeZero.Some? ==> t == s.metadata.value.period.timeZero.value
  {
    match s.metadata
    case None => 0
    case Some(m) => m.period.timeZero.GetOr(0)
  }

  /** `[gte, lte]` of a dataset's period: always a pair, lower bound first. */
  function ToTemporalRange(m: Metadata): (r: seq<int>)
    ensures |r| == 2 && r[0] == m.period.gte && r[1] == m.period.lte
  {
    [m.period.gte, m.period.lte]
  }

  /**
   The selected dataset's `[gte, lte]`, or `[1, currentYear]` when none is selected;
   the current calendar year is supplied by the caller.
   */
  function Timespan(s: State, currentYear: int): (r: seq<int>)
    ensures |r| == 2
    ensures s.metadata.Some? ==> r[0] == s.metadata.value.period.gte && r[1] == s.metadata.value.period.lte
    ensures s.metadata.None? ==> r == [1, currentYear]
  {
    match s.metadata
    case Some(m) => ToTemporalRange(m)
    case None => [1, currentYear]
  }

  /** True while a request is under way; the status name is compared with "loading". */
  function IsTimeSeriesLoading(s: State): (r: bool)
    ensures r <==> s.timeSeriesRequestStatus.Loading?
  {
    NameDeterminesVariant(s.timeSeriesRequestStatus, Loading);
    s.timeSeriesRequestStatus.Name() == "loading"
  }

  /** True once a request has succeeded; the status name is compared with "success". */
  function IsTimeSeriesLoaded(s: State): (r: bool)
    ensures r <==> s.timeSeriesRequestStatus.Success?
  {
    NameDeterminesVariant(s.timeSeriesRequestStatus, Success);
    s.timeSeriesRequestStatus.Name() == "success"
  }

  // ---------------------------------------------------------------------------
  // Mutations

  /** `t` differs from `s` in the request status alone. */
  ghost predicate OnlyStatusChanged(s: State, t: State) {
    t.(timeSeriesRequestStatus := s.timeSeriesRequestStatus) == s
  }

  function SetAreaPerPixel(s: State, areaPerPixel: real): (r: State)
    ensures r.areaPerPixel == areaPerPixel
    ensures r.(areaPerPixel := s.areaPerPixel) == s
  {
    s.(areaPerPixel := areaPerPixel)
  }

  function SetTimeSeriesLoading(s: State): (r: State)
    ensures IsTimeSeriesLoading(r) && !IsTimeSeriesLoaded(r)
    ensures r.timeSeriesRequestStatus.TopSeverity() == Some(Info)
    ensures r.timeSeriesRequestStatus.Messages() == [Message(Info, LoadingText)]
    ensures OnlyStatusChanged(s, r)
  {
    s.(timeSeriesRequestStatus := Loading)
  }

  function SetTimeSeriesLoaded(s: State): (r: State)
    ensures IsTimeSeriesLoaded(r) && !IsTimeSeriesLoading(r)
    ensures r.timeSeriesRequestStatus.TopSeverity() == Some(Info)
    ensures r.timeSeriesRequestStatus.Messages() == [Message(Info, SuccessText)]
    ensures OnlyStatusChanged(s, r)
  {
    s.(timeSeriesRequestStatus := Success)
  }

  function SetTimeSeriesTimeout(s: State): (r: State)
    ensures r.timeSeriesRequestStatus.Name() == "timeout"
    ensures !IsTimeSeriesLoading(r) && !IsTimeSeriesLoaded(r)
    ensures r.timeSeriesRequestStatus.TopSeverity() == None
    ensures r.timeSeriesRequestStatus.Messages() == [Message(Warning, TimeoutText)]
    ensures OnlyStatusChanged(s, r)
  {
    s.(timeSeriesRequestStatus := Timeout)
  }

  function SetTimeSeriesNoArea(s: State): (r: State)
    ensures r.timeSeriesRequestStatus.Name() == "no-area"
    ensures !IsTimeSeriesLoading(r) && !IsTimeSeriesLoaded(r)
    ensures r.timeSeriesRequestStatus.TopSeverity() == None
    ensures r.timeSeriesRequestStatus.Messages() == [Message(Warning, NoAreaText)]
    ensures OnlyStatusChanged(s, r)
  {
    s.(timeSeriesRequestStatus := NoArea)
  }

  function SetTimeSeriesBadRequest(s: State, details: seq<ErrorDetail>): (r: State)
    ensures r.timeSeriesRequestStatus.Name() == "badrequest"
    ensures !IsTimeSeriesLoading(r) && !IsTimeSeriesLoaded(r)
    ensures r.timeSeriesRequestStatus.TopSeverity() == Some(Error)
    ensures |r.timeSeriesRequestStatus.Messages()| == |details|
    ensures forall i :: 0 <= i < |details| ==>
              r.timeSeriesRequestStatus.Messages()[i] == Message(Error, details[i].msg)
    ensures OnlyStatusChanged(s, r)
  {
    s.(timeSeriesRequestStatus := BadRequest(ErrorMessages(details)))
  }

  function SetTimeSeriesServerError(s: State, details: seq<ErrorDetail>): (r: State)
    ensures r.timeSeriesRequestStatus.Name() == "servererror"
    ensures !IsTimeSeriesLoading(r) && !IsTimeSeriesLoaded(r)
    ensures r.timeSeriesRequestStatus.TopSeverity() == Some(Error)
    ensures |r.timeSeriesRequestStatus.Messages()| == |details|
    ensures forall i :: 0 <= i < |details| ==>
              r.timeSeriesRequestStatus.Messages()[i] == Message(Error, details[i].msg)
    ensures OnlyStatusChanged(s, r)
  {
    s.(timeSeriesRequestStatus := ServerError(ErrorMessages(details)))
  }

  /**
   Replaces the metadata; a present record also overwrites the temporal range with
   its period, an absent one leaves the range as it was.
   */
  function SetMetadata(s: State, m: Option<Metadata>): (r: State)
    ensures r.metadata == m
    ensures m.Some? ==> r.temporalRange == [m.value.period.gte, m.value.period.lte]
    ensures m.None? ==> r.temporalRange == s.temporalRange
    ensures r.(metadata := s.metadata, temporalRange := s.temporalRange) == s
  {
    match m
    case Some(md) => s.(metadata := m, temporalRange := ToTemporalRange(md))
    case None => s.(metadata := m)
  }

  /** Replaces the temporal range's contents with the given list, whatever its length. */
  function SetTemporalRange(s: State, temporalRange: seq<int>): (r: State)
    ensures r.temporalRange == temporalRange
    ensures r.(temporalRange := s.temporalRange) == s
  {
    s.(temporalRange := temporalRange)
  }

  /**
   The selection loop: walks the variables front to back, setting each flag to "has
   this id" and remembering the last flagged variable, starting from `selected`.
   */
  function ScanVariables(vars: seq<Variable>, id: string, selected: Option<Variable>)
    : (r: (seq<Variable>, Option<Variable>))
    ensures FlaggedFor(vars, r.0, id)
    ensures forall k :: IsLastMatch(vars, id, k) ==> r.1 == Some(r.0[k])
    ensures !HasMatch(vars, id) ==> r.1 == selected
    ensures HasMatch(vars, id) ==> r.1.Some? && r.1.value.id == id && r.1.value.visible
    decreases |vars|
  {
    if |vars| == 0 then ([], selected)
    else
      var v := vars[0].(visible := vars[0].id == id);
      var rest := ScanVariables(vars[1..], id, if v.visible then Some(v) else selected);
      assert forall k :: IsLastMatch(vars, id, k) && k > 0 ==> IsLastMatch(vars[1..], id, k - 1);
      assert HasMatch(vars[1..], id) ==> HasMatch(vars, id) by {
        if HasMatch(vars[1..], id) {
          var i :| 0 <= i < |vars[1..]| && vars[1..][i].id == id;
          assert vars[i + 1].id == id;
        }
      }
      ([v] + rest.0, rest.1)
  }

  /**
   Selects the variable with the given id in the current metadata: every flag becomes
   "has this id", and `variable` becomes the last match, or stays as it was when
   nothing matches. With no metadata the loop throws before changing anything.
   */
  function SetVariable(s: State, id: string): (r: Outcome)
    ensures s.metadata.None? <==> r.Threw?
    ensures r.Threw? ==> r.fault == MetadataMissing && r.state == s
    ensures r.Completed? ==>
              && r.state.metadata.Some?
              && r.state.metadata.value == s.metadata.value.(variables := r.state.metadata.value.variables)
              && FlaggedFor(s.metadata.value.variables, r.state.metadata.value.variables, id)
    ensures r.Completed? ==> forall k :: IsLastMatch(s.metadata.value.variables, id, k) ==>
              r.state.variable == Some(r.state.metadata.value.variables[k])
    ensures r.Completed? && !HasMatch(s.metadata.value.variables, id) ==> r.state.variable == s.variable
    ensures r.Completed? && HasMatch(s.metadata.value.variables, id) ==>
              r.state.variable.Some? && r.state.variable.value.id == id && r.state.variable.value.visible
    ensures r.state.(metadata := s.metadata, variable := s.variable) == s
  {
    match s.metadata
    case None => Threw(MetadataMissing, s)
    case Some(m) =>
      var (vars, selected) := ScanVariables(m.variables, id, s.variable);
      Completed(s.(metadata := Some(m.(variables := vars)), variable := selected))
  }

  /** `area` is read off the geometry, and is 0 without one. */
  ghost predicate AreaCached(s: State, area: AreaFunction) {
    s.selectedAreaInSquareMeters == match s.geoJson case Some(g) => area(g) case None => 0.0
  }

  /** Stores the drawn geometry and caches its area (0 for no geometry). */
  function SetGeoJson(s: State, geoJson: Option<Geometry>, area: AreaFunction): (r: State)
    ensures r.geoJson == geoJson
    ensures HasGeoJson(r) <==> geoJson.Some?
    ensures AreaCached(r, area)
    ensures (forall g :: area(g) >= 0.0) ==> r.selectedAreaInSquareMeters >= 0.0
    ensures r.(geoJson := s.geoJson, selectedAreaInSquareMeters := s.selectedAreaInSquareMeters) == s
  {
    s.(geoJson := geoJson,
       selectedAreaInSquareMeters := match geoJson case Some(g) => area(g) case None => 0.0)
  }

  /** Forgets the drawn geometry and resets the cached area. */
  function ClearGeoJson(s: State): (r: State)
    ensures !HasGeoJson(r) && r.selectedAreaInSquareMeters == 0.0
    ensures !CanHandleTimeSeriesRequest(r)
    ensures r.(geoJson := s.geoJson, selectedAreaInSquareMeters := s.selectedAreaInSquareMeters) == s
  {
    s.(geoJson := None, selectedAreaInSquareMeters := 0.0)
  }

  /** Stores fetched data and records that a load completed, even for empty data. */
  function SetTimeSeries(s: State, timeseries: TimeSeries): (r: State)
    ensures r.hasData && r.timeseries == timeseries
    ensures r.(hasData := s.hasData, timeseries := s.timeseries) == s
  {
    s.(hasData := true, timeseries := timeseries)
  }

  /** Drops the data: empty `x` and `y`, and no completed load. */
  function ClearTimeSeries(s: State): (r: State)
    ensures !r.hasData && r.timeseries.x == [] && r.timeseries.y == []
    ensures r.(hasData := s.hasData, timeseries := s.timeseries) == s
  {
    s.(hasData := false, timeseries := NoTimeSeries)
  }

  // ---------------------------------------------------------------------------
  // Actions

  /** The current metadata already has this id, so loading it again does nothing. */
  predicate AlreadyLoaded(s: State, id: string) {
    s.metadata.Some? && s.metadata.value.id == id
  }

  /**
   Loads a dataset by id: unless it is already the current one, the first catalog
   record with that id becomes the metadata (with its period as temporal range) and its
   first variable is selected; an unknown id changes nothing.
   */
  function LoadMetadata(s: State, catalog: seq<Metadata>, id: string): (r: State)
    ensures AlreadyLoaded(s, id) || Find(catalog, id).None? ==> r == s
    ensures r != s ==> AlreadyLoaded(r, id)
    ensures r.(metadata := s.metadata, variable := s.variable, temporalRange := s.temporalRange) == s
    ensures r.temporalRange == s.temporalRange || |r.temporalRange| == 2
  {
    if AlreadyLoaded(s, id) then s
    else match Find(catalog, id)
      case None => s
      case Some(m) =>
        var t := SetMetadata(s, Some(m));
        if |m.variables| > 0 then SetVariable(t, m.variables[0].id).state else t
  }

  /**
   Makes sure a variable is selected: loads the dataset only when no metadata at all is
   present (an already loaded, different dataset is kept), then selects the first
   variable if none is selected yet. That selection throws when there is still no
   metadata or it has no variables.
   */
  function LoadDefaultVariable(s: State, catalog: seq<Metadata>, id: string): (r: Outcome)
    ensures r.Completed? ==> r.state.variable.Some?
    ensures s.metadata.Some? ==> r.state.metadata.Some? && r.state.metadata.value.id == s.metadata.value.id
    ensures s.metadata.Some? && s.variable.Some? ==> r == Completed(s)
    ensures s.metadata.None? ==> r.state == LoadMetadata(s, catalog, id)
    ensures s.metadata.Some? && s.variable.None? && |s.metadata.value.variables| > 0 ==>
              r == SetVariable(s, s.metadata.value.variables[0].id)
    ensures r.state.(metadata := s.metadata, variable := s.variable, temporalRange := s.temporalRange) == s
  {
    var t := if s.metadata.None? then LoadMetadata(s, catalog, id) else s;
    if t.variable.Some? then Completed(t)
    else match t.metadata
      case None => Threw(MetadataMissing, t)
      case Some(m) =>
        if |m.variables| == 0 then Threw(NoVariables, t)
        else SetVariable(t, m.variables[0].id)
  }

  /**
   When the default-variable action throws: exactly when no variable is selected and,
   after the optional load, there is still no metadata or it has no variables.
   */
  lemma LoadDefaultVariableThrowsIff(s: State, catalog: seq<Metadata>, id: string)
    ensures LoadDefaultVariable(s, catalog, id).Threw? <==>
              && s.variable.None?
              && match s.metadata
                 case Some(m) => |m.variables| == 0
                 case None => Find(catalog, id).None? || |Find(catalog, id).value.variables| == 0
  {
    var r := LoadDefaultVariable(s, catalog, id);
    if s.metadata.None? {
      var t := LoadMetadata(s, catalog, id);
      match Find(catalog, id)
      case None =>
        assert t == s;
      case Some(m) =>
        var u := SetMetadata(s, Some(m));
        if |m.variables| > 0 {
          assert HasMatch(m.variables, m.variables[0].id);
        } else {
          assert t == u;
        }
    }
  }
}

=== FILE: dataset_properties.dfy ===
/**
 Properties of the dataset store that relate several operations, or an operation to the
 getters: variable selection, idempotent loading, the request gate and the
 per-dataset geometry key.
 */
module DatasetProperties {
  import opened Options
  import opened Status
  import opened Catalog
  import opened Dataset

  /** A fresh session is loading, has nothing selected and shows the default ranges. */
  lemma InitialState(currentYear: int, area: AreaFunction)
    ensures IsTimeSeriesLoading(Initial) && !IsTimeSeriesLoaded(Initial)
    ensures !HasGeoJson(Initial) && !CanHandleTimeSeriesRequest(Initial)
    ensures Initial.temporalRange == [1, 2000] && Timespan(Initial, currentYear) == [1, currentYear]
    ensures AreaCached(Initial, area) && !Initial.hasData
    ensures GeoJsonKey(Initial) == "skope:geometry" && TimeZero(Initial) == 0
  {
  }

  /** The loading and loaded getters are never both true. */
  lemma LoadingAndLoadedExclusive(s: State)
    ensures !(IsTimeSeriesLoading(s) && IsTimeSeriesLoaded(s))
  {
  }

  /** Any variable list that has a match for `id` has a last match. */
  lemma {:induction false} LastMatchExists(vars: seq<Variable>, id: string, i: nat)
    requires i < |vars| && vars[i].id == id
    ensures exists k :: IsLastMatch(vars, id, k)
    decreases |vars| - i
  {
    if forall j :: i < j < |vars| ==> vars[j].id != id {
      assert IsLastMatch(vars, id, i);
    } else {
      var j :| i < j < |vars| && vars[j].id == id;
      LastMatchExists(vars, id, j);
    }
  }

  /**
   With unique ids, selecting an id held by variable `k` leaves exactly that variable
   visible, and it becomes the selected variable.
   */
  lemma SetVariableSelectsUnique(s: State, id: string, k: int)
    requires s.metadata.Some? && UniqueIds(s.metadata.value.variables)
    requires 0 <= k < |s.metadata.value.variables| && s.metadata.value.variables[k].id == id
    ensures SetVariable(s, id).Completed?
    ensures VisibleExactly(SetVariable(s, id).state.metadata.value.variables, k)
    ensures SetVariable(s, id).state.variable == Some(s.metadata.value.variables[k].(visible := true))
  {
    assert IsLastMatch(s.metadata.value.variables, id, k);
  }

  /**
   Duplicate ids: when positions `i < j` share the id and `j` is its last occurrence,
   both are flagged visible and the selection is the variable at `j`.
   */
  lemma SetVariableDuplicateIdsLastWins(s: State, id: string, i: int, j: int)
    requires s.metadata.Some?
    requires 0 <= i < j < |s.metadata.value.variables|
    requires s.metadata.value.variables[i].id == id && s.metadata.value.variables[j].id == id
    requires forall k :: j < k < |s.metadata.value.variables| ==> s.metadata.value.variables[k].id != id
    ensures SetVariable(s, id).state.metadata.value.variables[i].visible
    ensures SetVariable(s, id).state.metadata.value.variables[j].visible
    ensures SetVariable(s, id).state.variable == Some(s.metadata.value.variables[j].(visible := true))
  {
    assert IsLastMatch(s.metadata.value.variables, id, j);
  }

  /** Selecting the same id a second time changes nothing more. */
  lemma SetVariableIdempotent(s: State, id: string)
    ensures SetVariable(SetVariable(s, id).state, id) == SetVariable(s, id)
  {
    var r := SetVariable(s, id);
    if s.metadata.Some? {
      var vars := s.metadata.value.variables;
      var t := r.state;
      var tvars := t.metadata.value.variables;
      var u := SetVariable(t, id).state;
      var uvars := u.metadata.value.variables;
      assert uvars == tvars by {
        assert |uvars| == |tvars|;
        forall i | 0 <= i < |tvars|
          ensures uvars[i] == tvars[i]
        {
        }
      }
      if HasMatch(vars, id) {
        var i :| 0 <= i < |vars| && vars[i].id == id;
        LastMatchExists(vars, id, i);
        var k :| IsLastMatch(vars, id, k);
        assert IsLastMatch(tvars, id, k);
      }
      assert u == t;
    }
  }

  /** Loading a dataset twice with the same id is the same as loading it once. */
  lemma LoadMetadataIdempotent(s: State, catalog: seq<Metadata>, id: string)
    ensures LoadMetadata(LoadMetadata(s, catalog, id), catalog, id) == LoadMetadata(s, catalog, id)
  {
  }

  /**
   A successful load: the metadata is the first catalog record with that id, with its
   flags rewritten for its first variable; the temporal range (and the timespan getter)
   is its period; with no variables the previous selection is kept.
   */
  lemma LoadMetadataLoadsFirstRecord(s: State, catalog: seq<Metadata>, id: string, m: Metadata, currentYear: int)
    requires !AlreadyLoaded(s, id) && Find(catalog, id) == Some(m)
    ensures var r := LoadMetadata(s, catalog, id);
      && r.metadata.Some?
      && r.metadata.value == m.(variables := r.metadata.value.variables)
      && r.temporalRange == [m.period.gte, m.period.lte]
      && Timespan(r, currentYear) == r.temporalRange
      && (|m.variables| > 0 ==> FlaggedFor(m.variables, r.metadata.value.variables, m.variables[0].id))
      && (|m.variables| > 0 ==> r.variable.Some? && r.variable.value.id == m.variables[0].id)
      && (|m.variables| == 0 ==> r.metadata == Some(m) && r.variable == s.variable)
  {
    var t := SetMetadata(s, Some(m));
    if |m.variables| > 0 {
      assert HasMatch(m.variables, m.variables[0].id);
    }
  }

  /** With unique variable ids, a successful load leaves exactly the first variable visible and selected. */
  lemma LoadMetadataSelectsFirstVariable(s: State, catalog: seq<Metadata>, id: string, m: Metadata)
    requires !AlreadyLoaded(s, id) && Find(catalog, id) == Some(m)
    requires |m.variables| > 0 && UniqueIds(m.variables)
    ensures var r := LoadMetadata(s, catalog, id);
      && r.metadata.Some?
      && VisibleExactly(r.metadata.value.variables, 0)
      && r.variable == Some(r.metadata.value.variables[0])
  {
    var t := SetMetadata(s, Some(m));
    SetVariableSelectsUnique(t, m.variables[0].id, 0);
  }

  /** The time origin read back after setting a dataset's metadata is that period's time zero, or 0. */
  lemma TimeZeroAfterSetMetadata(s: State, m: Metadata)
    ensures TimeZero(SetMetadata(s, Some(m))) == m.period.timeZero.GetOr(0)
    ensures TimeZero(SetMetadata(s, None)) == 0
  {
  }

  /** Clearing the geometry is setting it to nothing, whatever the area calculator. */
  lemma ClearGeoJsonIsSetNull(s: State, area: AreaFunction)
    ensures ClearGeoJson(s) == SetGeoJson(s, None, area)
  {
  }

  /** Clearing the time series undoes any earlier store of data. */
  lemma ClearTimeSeriesUndoesSet(s: State, timeseries: TimeSeries)
    ensures ClearTimeSeries(SetTimeSeries(s, timeseries)) == ClearTimeSeries(s)
  {
  }

  /** The id of the loaded dataset, if any. */
  function MetadataId(s: State): Option<string> {
    match s.metadata
    case None => None
    case Some(m) => Some(m.id)
  }

  /** Two sessions share a geometry key exactly when they have the same dataset loaded, or none. */
  lemma GeoJsonKeyIdentifiesDataset(s: State, t: State)
    ensures GeoJsonKey(s) == GeoJsonKey(t) <==> MetadataId(s) == MetadataId(t)
  {
    var a, b := GeoJsonKey(s), GeoJsonKey(t);
    if a == b {
      if s.metadata.Some? && t.metadata.Some? {
        assert s.metadata.value.id == a[|GeoJsonKeyPrefix|..];
      } else if s.metadata.Some? || t.metadata.Some? {
        assert a[0] == b[0];
      }
    }
  }

  /**
   Loading a dataset that has variables and then drawing a study area opens the request
   gate; clearing the area closes it again.
   */
  lemma GateOpensAfterLoadAndDraw(s: State, catalog: seq<Metadata>, id: string, g: Geometry, area: AreaFunction)
    requires Find(catalog, id).Some? && |Find(catalog, id).value.variables| > 0
    requires !AlreadyLoaded(s, id)
    ensures CanHandleTimeSeriesRequest(SetGeoJson(LoadMetadata(s, catalog, id), Some(g), area))
    ensures !CanHandleTimeSeriesRequest(ClearGeoJson(SetGeoJson(LoadMetadata(s, catalog, id), Some(g), area)))
  {
    LoadMetadataLoadsFirstRecord(s, catalog, id, Find(catalog, id).value, 0);
  }

  /**
   Both readers of a dataset's period agree: after the metadata is set, the stored
   temporal range and the timespan getter are the same pair, `[gte, lte]`.
   */
  lemma TemporalRangeAgreesWithTimespan(s: State, m: Metadata, currentYear: int)
    ensures SetMetadata(s, Some(m)).temporalRange == ToTemporalRange(m)
    ensures Timespan(SetMetadata(s, Some(m)), currentYear) == SetMetadata(s, Some(m)).temporalRange
  {
  }

  /**
   The default selection is the first variable: when nothing was selected and the
   action completes, the selection carries the id of the first variable of the
   metadata it ends with, and every flag is rewritten for that id.
   */
  lemma LoadDefaultVariableSelectsFirst(s: State, catalog: seq<Metadata>, id: string)
    requires s.variable.None?
    ensures var r := LoadDefaultVariable(s, catalog, id);
      r.Completed? ==>
        && r.state.metadata.Some?
        && |r.state.metadata.value.variables| > 0
        && r.state.variable.value.id == r.state.metadata.value.variables[0].id
        && r.state.variable.value.visible
        && FlaggedFor(r.state.metadata.value.variables, r.state.metadata.value.variables, r.state.variable.value.id)
  {
    var r := LoadDefaultVariable(s, catalog, id);
    if s.metadata.None? {
      match Find(catalog, id)
      case None =>
      case Some(m) =>
        if |m.variables| > 0 {
          LoadMetadataLoadsFirstRecord(s, catalog, id, m, 0);
          var t := LoadMetadata(s, catalog, id);
          assert t.metadata.value.variables[0].id == m.variables[0].id;
          assert HasMatch(m.variables, m.variables[0].id);
        }
    } else {
      var vars := s.metadata.value.variables;
      if |vars| > 0 {
        assert HasMatch(vars, vars[0].id);
      }
    }
  }

  /**
   With no metadata loaded, the action installs what the load finds: nothing for an
   unknown id, otherwise the first catalog record with that id, its flags rewritten
   for its first variable when it has one; this holds whether it completes or throws.
   */
  lemma LoadDefaultVariableLoadsWhenEmpty(s: State, catalog: seq<Metadata>, id: string)
    requires s.metadata.None?
    ensures var r := LoadDefaultVariable(s, catalog, id);
      match Find(catalog, id)
      case None => r.state.metadata.None?
      case Some(m) =>
        && r.state.metadata.Some?
        && r.state.metadata.value == m.(variables := r.state.metadata.value.variables)
        && (|m.variables| == 0 ==> r.state.metadata == Some(m))
        && (|m.variables| > 0 ==> FlaggedFor(m.variables, r.state.metadata.value.variables, m.variables[0].id))
        && (|m.variables| > 0 ==> r.state.variable.Some? && r.state.variable.value.id == m.variables[0].id)
  {
    match Find(catalog, id)
    case None =>
    case Some(m) =>
      LoadMetadataLoadsFirstRecord(s, catalog, id, m, 0);
  }

  /**
   With no metadata loaded, an existing selection does not stop the load: the action
   is exactly the load, which replaces that selection with the first variable of the
   record it finds.
   */
  lemma LoadDefaultVariableReloadsOverStaleSelection(s: State, catalog: seq<Metadata>, id: string)
    requires s.metadata.None? && s.variable.Some?
    ensures LoadDefaultVariable(s, catalog, id) == Completed(LoadMetadata(s, catalog, id))
    ensures Find(catalog, id).Some? && |Find(catalog, id).value.variables| > 0 ==>
              LoadDefaultVariable(s, catalog, id).state.variable.value.id == Find(catalog, id).value.variables[0].id
  {
    if Find(catalog, id).Some? {
      LoadMetadataLoadsFirstRecord(s, catalog, id, Find(catalog, id).value, 0);
    }
  }
}

=== FILE: options.dfy ===
/** The optional-value wrapper used wherever the store holds `null` or a lookup may miss. */
module Options {

  /** `None` stands for JavaScript's `null` (or a missing lookup result). */
  datatype Option<+T> = None | Some(value: T) {

    /** The wrapped value, or `default` when there is none. */
    function GetOr(default: T): T {
      match this
      case Some(v) => v
      case None => default
    }
  }
}

=== FILE: session.dfy ===
/**
 A session as a sequence of calls into the dataset store, and the facts that hold in
 every state such a sequence can reach from a fresh session. A call that throws leaves
 behind whatever it committed before the throw, and the session carries on from there.
 */
module Session {
  import opened Options
  import opened Status
  import opened Catalog
  import D = Dataset

  /** One call into the store: each mutation and each action, with its argument. */
  datatype Op =
    | SetAreaPerPixel(areaPerPixel: real)
    | SetTimeSeriesLoading
    | SetTimeSeriesLoaded
    | SetTimeSeriesTimeout
    | SetTimeSeriesBadRequest(details: seq<ErrorDetail>)
    | SetTimeSeriesServerError(details: seq<ErrorDetail>)
    | SetTimeSeriesNoArea
    | SetMetadata(metadata: Option<Metadata>)
    | SetTemporalRange(temporalRange: seq<int>)
    | SetVariable(id: string)
    | SetGeoJson(geoJson: Option<D.Geometry>)
    | ClearGeoJson
    | SetTimeSeries(timeseries: D.TimeSeries)
    | ClearTimeSeries
    | LoadMetadata(id: string)
    | LoadDefaultVariable(id: string)

  /** The calls a well-behaved caller makes: a temporal range is always a pair. */
  predicate WellFormed(op: Op) {
    op.SetTemporalRange? ==> |op.temporalRange| == 2
  }

  /** One call, against a fixed catalog and area calculator. */
  function Apply(s: D.State, catalog: seq<Metadata>, area: D.AreaFunction, op: Op): D.Outcome {
    match op
    case SetAreaPerPixel(a) => D.Completed(D.SetAreaPerPixel(s, a))
    case SetTimeSeriesLoading => D.Completed(D.SetTimeSeriesLoading(s))
    case SetTimeSeriesLoaded => D.Completed(D.SetTimeSeriesLoaded(s))
    case SetTimeSeriesTimeout => D.Completed(D.SetTimeSeriesTimeout(s))
    case SetTimeSeriesBadRequest(ds) => D.Completed(D.SetTimeSeriesBadRequest(s, ds))
    case SetTimeSeriesServerError(ds) => D.Completed(D.SetTimeSeriesServerError(s, ds))
    case SetTimeSeriesNoArea => D.Completed(D.SetTimeSeriesNoArea(s))
    case SetMetadata(m) => D.Completed(D.SetMetadata(s, m))
    case SetTemporalRange(tr) => D.Completed(D.SetTemporalRange(s, tr))
    case SetVariable(id) => D.SetVariable(s, id)
    case SetGeoJson(g) => D.Completed(D.SetGeoJson(s, g, area))
    case ClearGeoJson => D.Completed(D.ClearGeoJson(s))
    case SetTimeSeries(ts) => D.Completed(D.SetTimeSeries(s, ts))
    case ClearTimeSeries => D.Completed(D.ClearTimeSeries(s))
    case LoadMetadata(id) => D.Completed(D.LoadMetadata(s, catalog, id))
    case LoadDefaultVariable(id) => D.LoadDefaultVariable(s, catalog, id)
  }

  /** The state after a sequence of calls. */
  function Run(s: D.State, catalog: seq<Metadata>, area: D.AreaFunction, ops: seq<Op>): D.State
    decreases |ops|
  {
    if |ops| == 0 then s
    else Run(Apply(s, catalog, area, ops[0]).state, catalog, area, ops[1..])
  }

  /**
   What every reachable state satisfies: the cached area matches the geometry, a
   session without a completed load holds no data, the temporal range is a pair, and
   the status's messages agree with its severity.
   */
  ghost predicate Invariant(s: D.State, area: D.AreaFunction) {
    && D.AreaCached(s, area)
    && (!s.hasData ==> s.timeseries == D.NoTimeSeries)
    && |s.temporalRange| == 2
    && s.timeSeriesRequestStatus.Consistent()
  }

  /** Every well-formed call keeps the invariant, whether it completes or throws. */
  lemma ApplyKeepsInvariant(s: D.State, catalog: seq<Metadata>, area: D.AreaFunction, op: Op)
    requires Invariant(s, area) && WellFormed(op)
    ensures Invariant(Apply(s, catalog, area, op).state, area)
  {
    match op
    case SetTimeSeriesBadRequest(ds) => BuiltStatusesAreConsistent(ds);
    case SetTimeSeriesServerError(ds) => BuiltStatusesAreConsistent(ds);
    case SetTimeSeriesLoading => BuiltStatusesAreConsistent([]);
    case SetTimeSeriesLoaded => BuiltStatusesAreConsistent([]);
    case SetTimeSeriesTimeout => BuiltStatusesAreConsistent([]);
    case SetTimeSeriesNoArea => BuiltStatusesAreConsistent([]);
    case LoadDefaultVariable(id) =>
      var t := if s.metadata.None? then D.LoadMetadata(s, catalog, id) else s;
      assert Invariant(t, area);
    case _ =>
  }

  /** A run of well-formed calls keeps the invariant. */
  lemma {:induction false} RunKeepsInvariant(s: D.State, catalog: seq<Metadata>, area: D.AreaFunction, ops: seq<Op>)
    requires Invariant(s, area)
    requires forall i :: 0 <= i < |ops| ==> WellFormed(ops[i])
    ensures Invariant(Run(s, catalog, area, ops), area)
    decreases |ops|
  {
    if |ops| > 0 {
      ApplyKeepsInvariant(s, catalog, area, ops[0]);
      RunKeepsInvariant(Apply(s, catalog, area, ops[0]).state, catalog, area, ops[1..]);
    }
  }

  /**
   Every state reachable from a fresh session by well-formed calls satisfies the
   invariant: in particular, the cached area is never stale relative to the geometry.
   */
  lemma ReachableStatesKeepInvariant(catalog: seq<Metadata>, area: D.AreaFunction, ops: seq<Op>)
    requires forall i :: 0 <= i < |ops| ==> WellFormed(ops[i])
    ensures Invariant(Run(D.Initial, catalog, area, ops), area)
  {
    BuiltStatusesAreConsistent([]);
    RunKeepsInvariant(D.Initial, catalog, area, ops);
  }

  /** Only the request-status setters move the status, and they touch nothing else. */
  lemma StatusSettersTouchOnlyStatus(s: D.State, catalog: seq<Metadata>, area: D.AreaFunction, op: Op)
    requires op.SetTimeSeriesLoading? || op.SetTimeSeriesLoaded? || op.SetTimeSeriesTimeout?
          || op.SetTimeSeriesBadRequest? || op.SetTimeSeriesServerError? || op.SetTimeSeriesNoArea?
    ensures Apply(s, catalog, area, op).Completed?
    ensures D.OnlyStatusChanged(s, Apply(s, catalog, area, op).state)
  {
  }
}

=== FILE: status.dfy ===
/**
 The lifecycle of a time-series request as the dataset store reports it to the page:
 one of six statuses, each with an optional top-level severity (the object's `type`)
 and an ordered list of messages to display.
 */
module Status {
  import opened Options

  /** The `type` tag of a status or of one of its messages. */
  datatype Severity = Info | Warning | Error

  /** One displayed message: its `type` and its `value` text. */
  datatype Message = Message(severity: Severity, value: string)

  /** One item of the error-detail list a failed request returns; only `msg` is read. */
  datatype ErrorDetail = ErrorDetail(msg: string)

  const LoadingText := "Loading time series data."
  const SuccessText := "Success"
  const TimeoutText := "Timeout exceeded, please try again with a smaller study area."
  const NoAreaText := "Please enter a study area."

  /**
   The six request statuses. The four fixed ones carry their constant messages; the
   two error statuses carry the messages built from the server's error details.
   */
  datatype RequestStatus =
    | Loading
    | Success
    | Timeout
    | NoArea
    | BadRequest(errors: seq<Message>)
    | ServerError(errors: seq<Message>)
  {
    /** The `status` string of the status object. */
    function Name(): string {
      match this
      case Loading => "loading"
      case Success => "success"
      case Timeout => "timeout"
      case NoArea => "no-area"
      case BadRequest(_) => "badrequest"
      case ServerError(_) => "servererror"
    }

    /** The object's top-level `type`; the timeout and no-area objects have none. */
    function TopSeverity(): Option<Severity> {
      match this
      case Loading => Some(Info)
      case Success => Some(Info)
      case Timeout => None
      case NoArea => None
      case BadRequest(_) => Some(Error)
      case ServerError(_) => Some(Error)
    }

    /** The object's `messages` list. */
    function Messages(): seq<Message> {
      match this
      case Loading => [Message(Info, LoadingText)]
      case Success => [Message(Info, SuccessText)]
      case Timeout => [Message(Warning, TimeoutText)]
      case NoArea => [Message(Warning, NoAreaText)]
      case BadRequest(ms) => ms
      case ServerError(ms) => ms
    }

    /**
     Every message has the status's own severity, or `Warning` for the two statuses
     that carry no top-level severity.
     */
    ghost predicate Consistent() {
      forall i :: 0 <= i < |Messages()| ==> Messages()[i].severity == TopSeverity().GetOr(Warning)
    }
  }

  /** True when `a` and `b` are built by the same constructor, payload aside. */
  predicate SameVariant(a: RequestStatus, b: RequestStatus) {
    || (a.Loading? && b.Loading?)
    || (a.Success? && b.Success?)
    || (a.Timeout? && b.Timeout?)
    || (a.NoArea? && b.NoArea?)
    || (a.BadRequest? && b.BadRequest?)
    || (a.ServerError? && b.ServerError?)
  }

  /**
   The `status` string tells the variants apart, so a comparison against a status name
   (as the loading and loaded getters do) is a test of the variant.
   */
  lemma NameDeterminesVariant(a: RequestStatus, b: RequestStatus)
    ensures a.Name() == b.Name() <==> SameVariant(a, b)
  {
    if a.Name() == b.Name() {
      assert a.Name()[0] == b.Name()[0];
      assert |a.Name()| == |b.Name()|;
    }
  }

  /**
   The message list of an error status: one error-typed message per detail, in the
   details' order, holding that detail's `msg`.
   */
  function ErrorMessages(details: seq<ErrorDetail>): (ms: seq<Message>)
    ensures |ms| == |details|
    ensures forall i :: 0 <= i < |details| ==> ms[i] == Message(Error, details[i].msg)
  {
    if |details| == 0 then []
    else [Message(Error, details[0].msg)] + ErrorMessages(details[1..])
  }

  /** Every fixed status, and every error status built from details, is consistent. */
  lemma BuiltStatusesAreConsistent(details: seq<ErrorDetail>)
    ensures Loading.Consistent() && Success.Consistent()
    ensures Timeout.Consistent() && NoArea.Consistent()
    ensures BadRequest(ErrorMessages(details)).Consistent()
    ensures ServerError(ErrorMessages(details)).Consistent()
  {
  }
}
